=== FILE: README.md ===
# Screen capture engine — Dafny model

This project models the capture engine of an Electron remote-access app's
native addon (`ScreenCapturer` in `addons/screen_capture.cpp`). The engine keeps
a capture loop that, on every pass:

1. checks whether the credential / elevation overlay is in front;
2. switches between the DirectX output-duplication path and the GDI fallback
   path accordingly, tearing the DirectX pointer chain down or rebuilding it;
3. captures one frame on the active path;
4. swaps the blue and red byte of every pixel;
5. publishes the frame.

Callers can also read the latest frame, list the monitors, and switch the
monitor that the DirectX path duplicates.

The model is functional. An immutable `Capturer.Engine` record holds the
mode flag, the DirectX pointer chain, the monitor index, the latest frame and
the primary-screen size. One loop pass is the pure function `Capturer.Tick`.
The switch is `Capturer.SwitchMonitor`, and the read is
`Capturer.GetLatestFrame`. Everything the platform decides is an input:

- `Platform.Platform` holds whether each chain-building call succeeds, plus the
  adapter/output layout. The layout is the device names of the outputs of each
  adapter.
- `TickInput` holds the foreground window's class name, the `Platform` whose
  build outcomes apply when the tick rebuilds the chain, the screen bytes the
  GDI path reads, and `DirectX.DxOutcome`. That outcome is the first failing
  call of the duplication path, or the texture size and mapped bytes.

Files:

- `platform.dfy`: platform inputs and overlay detection.
- `pixels.dfy`: the channel swap.
- `monitors.dfy`: monitor enumeration.
- `directx.dfy`: the pointer chain, its build and teardown, and one tick's
  duplication calls.
- `capturer.dfy`: the engine.

Pointers are `Null`, `Live` or `Released`. `Released` stands for a member whose
reference was given up but which still holds its old value.

A tick that calls through a pointer that is not live stops the loop with
`Halted`. So does a copy past the mapped memory, or a rebuild failure inside
the loop, where the exception is not caught on the capture thread.

The teardown is a parameter of the engine (`DirectX.TeardownStyle`):

- `AsWritten` is the code's teardown. It releases every non-null pointer and
  leaves the member set, so the pointer dangles. Every result of `ModeStep`,
  `Tick` and `SwitchMonitor` carries `overReleases`, the number of release calls
  made on pointers that were already released.
- `Corrected` nulls each member after releasing it. The lemmas whose names
  begin with `Corrected` hold only for this variant.

Apart from the teardown, the model follows the code, including where the code
departs from what the engine is meant to do:

- The loop clears the fallback flag and then rebuilds the chain. A failed
  rebuild escapes the thread (`ReinitEscaped`). The engine does not stay in
  fallback mode.
- A failed build leaves the pointers that were already stored live. The chain
  is a live prefix, not "all or nothing".
- The DirectX buffer is sized from the texture description (32-bit unsigned
  arithmetic). The published width and height are the primary screen's.
  So `|data| == width * height * 4` is proved only for the GDI path.
- The chain is always built on adapter 0. The monitor index is an output
  index of adapter 0, while the listing gives adapter-local indices for every
  adapter.
- Every failure of `AcquireNextFrame`, including a time-out, is treated the
  same: the tick is skipped.
- A build call that fails writes null into the member it was to fill, as COM
  does with the out-parameter of a failing call. The members after it keep
  what they held.
- After a switch whose rebuild fails on the DirectX path, the next tick
  without overlay calls `AcquireNextFrame` through a duplication pointer
  that is null or released (`FailedSwitchHaltsNextTick`).
- A NaN or infinite switch argument passes the number check and converts to
  output 0.

## Model

| member | source | states |
|---|---|---|
| `Pixels.ConvertBgraToRgba` | addons/screen_capture.cpp:258-261 | The in-place loop that steps four bytes at a time and swaps bytes 0 and 2 produces exactly the swapped buffer, for every pixel-aligned input. |
| `Pixels.SwapOnePixel` | addons/screen_capture.cpp:259-261 | For every pixel at offset p, output bytes p..p+3 are input bytes p+2, p+1, p, p+3: red and blue trade places, green and alpha stay, and no other byte is involved. |
| `Pixels.SwapTwiceIsIdentity` | addons/screen_capture.cpp:259-261 | Swapping twice returns the original buffer, so the swap must run exactly once per published frame. |
| `Pixels.SolidColourReadsAsRgba` | addons/screen_capture.cpp:258-261 | A buffer of one B-G-R-A colour reads back, pixel by pixel, as that colour in R-G-B-A order. |
| `Monitors.ListMonitors` | addons/screen_capture.cpp:45-77 | Fails exactly when the factory cannot be created; otherwise the nested adapter/output loops return the adapter-by-adapter flattening of the layout. |
| `Monitors.FlattenLength` | addons/screen_capture.cpp:55-71 | The listing has one entry per (adapter, output) pair. |
| `Monitors.FlattenPosition` | addons/screen_capture.cpp:55-69 | Output j of adapter i is listed right after all outputs of earlier adapters, with its own device name and index j (adapter-local, not global). |
| `Monitors.FlattenEntriesAreOutputs` | addons/screen_capture.cpp:55-69 | Every listed entry is some output of some adapter, with that output's adapter-local position as its index. |
| `Monitors.TwoAdaptersShareIndices` | addons/screen_capture.cpp:55-69 | Adapters with one and two outputs give three entries with indices 0, 0, 1. |
| `DirectX.Initialize` | addons/screen_capture.cpp:101-121 | The chain is built exactly when device, factory, adapter 0, output `monitor` of adapter 0, the output upgrade and duplication all succeed; then every pointer is live. A failure is reported at the first of these calls that fails, in call order (`DirectX.FirstFailure`). On failure, the pointers stored before the failing call are live, the member the failing call writes into is null (all but the factory call write into one), and the members after it keep what they held. Output enumeration fails exactly when adapter 0 has too few outputs. |
| `DirectX.InitFromNothingLeavesPrefix` | addons/screen_capture.cpp:101-121 | Built from an empty chain, a failed build leaves a live prefix whose length is set by the failing step; a successful build leaves all five pointers live. |
| `DirectX.CleanupAsWritten` | addons/screen_capture.cpp:128-134 | The teardown as written releases every non-null pointer and leaves exactly the same members non-null. |
| `DirectX.OverlayRoundTripReleasesTwice` | addons/screen_capture.cpp:123-134 | From a usable chain, the teardown at the switch to fallback releases nothing twice. The teardown that starts the next rebuild then calls release five times, all five on pointers already released. |
| `DirectX.Cleanup` | addons/screen_capture.cpp:128-134 | The corrected teardown leaves every member null, and it releases a pointer twice exactly when the chain held a released leftover. |
| `DirectX.CleanupTwiceReleasesOnce` | addons/screen_capture.cpp:128-134 | With the corrected teardown, a second teardown releases nothing at all. |
| `DirectX.CaptureCalls` | addons/screen_capture.cpp:199-255 | On every path out of a duplication tick, the objects acquired are the prefix of frame lease, resource, texture, staging texture, mapping reached by the successful calls. The objects released are exactly those, each once, and no object is acquired twice. |
| `DirectX.CopySize` | addons/screen_capture.cpp:247 | The copy size is a multiple of 4 below 2^32 that differs from width·height·4 by a multiple of 2^32: the low 32 bits of the product, which is the product itself when it does not wrap. |
| `DirectX.DxCapture` | addons/screen_capture.cpp:196-256 | A failing acquire, query, staging creation or map skips the tick. A call through a pointer that is not live, or a copy past the mapped memory, crashes. Otherwise the first CopySize mapped bytes are captured, which is a whole number of pixels. |
| `Platform.OverlayActive` | addons/screen_capture.cpp:151-160 | The overlay counts as active exactly when there is a foreground window whose class name, as read into the 256-byte buffer, equals "Credential Dialog Xaml Host". No foreground window means no overlay. |
| `Platform.ClassNameRead` | addons/screen_capture.cpp:155-156 | The class name read is a prefix of the name: the whole name exactly when it fits in 255 characters, and otherwise its first 255 characters. |
| `Capturer.Start` | addons/screen_capture.cpp:18-23 | Construction succeeds exactly when the chain can be built for output 0. The engine then starts on DirectX, with monitor 0, an empty frame and the primary-screen size. |
| `Capturer.ModeStep` | addons/screen_capture.cpp:123-176 | Overlay on DirectX goes to fallback with the chain torn down: as written, the non-null members are left released but set; corrected, they are null. No overlay on fallback goes to DirectX with the chain rebuilt for the current monitor, or crashes when the rebuild fails. Otherwise nothing changes and nothing is released. A mode change releases a pointer a second time once for every member the chain still held as a released leftover. The frame, the size and the monitor are never touched. |
| `Capturer.ModeStepIdempotent` | addons/screen_capture.cpp:166-171 | A second mode check with the same overlay reading does nothing: no teardown, no rebuild, no release, mode unchanged. |
| `Capturer.OverlayHeldTearsDownOnce` | addons/screen_capture.cpp:162-176 | While the overlay stays in front, the loop never stops and never rebuilds. It tears down once if it started on DirectX and never otherwise, and it ends on the fallback path. |
| `Capturer.FitToFrame` | addons/screen_capture.cpp:193-194 | The fallback buffer has exactly width·height·4 bytes: the screen bytes, then zeros. |
| `Capturer.Tick` | addons/screen_capture.cpp:162-267 | A tick stops the loop exactly when the mode step's rebuild fails or, on the DirectX path, the capture crashes; otherwise it carries the mode step's transition and chain. A tick never changes the monitor or size. A tick that publishes nothing leaves the frame as it was and is on DirectX. A fallback tick always publishes a frame of width·height·4 bytes, and every published frame is pixel-aligned. After a tick that did not stop the loop, the engine is on the fallback path exactly when the overlay is in front. A fallback tick publishes the swapped screen bytes fitted to the frame size; a DirectX tick that publishes has captured through the engine's chain and publishes the swapped copied bytes. The tick releases a pointer a second time once per released leftover in the chain when it changes mode, and never otherwise. |
| `Capturer.TeardownStyleOnlyChangesChain` | addons/screen_capture.cpp:128-134 | The two teardowns give the same crash or the same mode change, the same publication and the same engine apart from the chain members. |
| `Capturer.DirectXTickReleasesWhatItAcquires` | addons/screen_capture.cpp:196-256 | A tick on DirectX that does not crash publishes exactly when every duplication call succeeded, and releases each per-tick object it acquired exactly once. |
| `Capturer.FallbackFrameRoundTrip` | addons/screen_capture.cpp:180-267 | With the overlay in front, a tick always runs the fallback path and publishes the swapped screen bytes, fitted to width·height·4. Swapping the read frame once more gives those bytes back. |
| `Capturer.FailedCaptureLeavesEngine` | addons/screen_capture.cpp:202-244 | On DirectX with a usable chain and no overlay, a failure of any duplication call leaves the engine exactly as it was and publishes nothing. |
| `Capturer.CapturedFrameRoundTrip` | addons/screen_capture.cpp:246-267 | A successful duplication tick, whether on a chain already live or on the chain rebuilt at the start of the tick, replaces the frame wholesale with the swapped copied bytes. Swapping the read frame once more gives the copied bytes back. |
| `Capturer.OverlayThenClearReleasesTwice` | addons/screen_capture.cpp:123-176 | With the teardown as written, the overlay tick on DirectX releases the five pointers once and leaves all five released but set. The next tick without overlay releases all five a second time. |
| `Capturer.SwitchInFallbackReleasesTwice` | addons/screen_capture.cpp:79-98 | With the teardown as written, a valid switch made while the overlay holds the engine on the fallback path releases all five pointers a second time. |
| `Capturer.FailedUpgradeInFallbackThenClear` | addons/screen_capture.cpp:79-134 | With the teardown as written, a switch in fallback whose upgrade to the duplication-capable output interface fails releases all five pointers a second time and leaves that member null. The tick after the overlay clears then releases only the duplication pointer again. |
| `Capturer.CorrectedTickKeepsValid` | addons/screen_capture.cpp:162-267 | With the corrected teardown, a tick keeps the stored frame pixel-aligned and the chain free of released leftovers, and releases no pointer twice. |
| `Capturer.CorrectedSwitchKeepsValid` | addons/screen_capture.cpp:79-98 | With the corrected teardown, a switch keeps the engine valid and releases no pointer twice. |
| `Capturer.GetLatestFrame` | addons/screen_capture.cpp:33-43 | A read returns a copy of the stored frame with the primary-screen width and height, and it leaves the engine as it was. |
| `Capturer.ReadsStayPixelAligned` | addons/screen_capture.cpp:33-43 | After any run of ticks that did not stop the loop, a read returns a whole number of pixels with the size the engine started with. |
| `Capturer.FirstReadIsEmpty` | addons/screen_capture.cpp:33-43 | Before the first publish, a read returns empty data and the primary-screen size. |
| `Capturer.OverlayThenClearScenario` | addons/screen_capture.cpp:162-194 | Overlay at start with a silent duplication: the first tick moves to fallback and publishes the swapped fallback frame. With the overlay gone, the next tick returns to DirectX with the chain rebuilt for the unchanged monitor 0, and the frame is kept. That tick releases all five pointers a second time with the teardown as written, and none with the corrected one. |
| `Capturer.Int32Value` | addons/screen_capture.cpp:85 | The converted index lies in the signed 32-bit range and agrees with the number's integer part modulo 2^32. NaN and the infinities convert to 0. |
| `Capturer.SwitchMonitor` | addons/screen_capture.cpp:79-98 | A missing or non-numeric argument, or a negative index, is rejected with the engine untouched. Otherwise the index is stored, the mode and frame stay, and the switch succeeds exactly when the chain builds for the new index, and a failure names the first build call that fails for it. An accepted switch releases a pointer a second time once per released leftover in the chain. A failed build leaves live the pointers stored before the failing call and null the member the failing call writes into; the others are null, or, as written, released but set when they were non-null before. |
| `Capturer.FailedSwitchHaltsNextTick` | addons/screen_capture.cpp:90-97 | After a failed switch on DirectX, the next tick without overlay calls through the duplication pointer, which is null with the corrected teardown and released but set as written. |
| `Capturer.NonFiniteSwitchSelectsFirstOutput` | addons/screen_capture.cpp:80-88 | A NaN or infinite argument is accepted and selects output 0. |
| `Capturer.SwitchToMissingOutputFails` | addons/screen_capture.cpp:85-97 | Switching to an index that adapter 0 does not have fails at output enumeration, and the index stays stored. |
| `Capturer.SecondAdapterOutputNotReachable` | addons/screen_capture.cpp:110-113 | A listed output of a second adapter, at index 1, cannot be selected when adapter 0 has one output: the switch fails. |

## Findings

| source | as written | input that shows it | evidently intended | confidence | as-written member | corrected member |
|---|---|---|---|---|---|---|
| addons/screen_capture.cpp:128-134 | Teardown releases each non-null pointer but leaves the member set. The teardown at line 170 followed by the one that opens the rebuild at line 124 releases all five pointers twice. | Overlay in front for one tick on DirectX, then gone for the next tick. | Null each member after releasing it, so that a second teardown releases nothing. | high, not executed | `Capturer.OverlayThenClearReleasesTwice`, `Capturer.SwitchInFallbackReleasesTwice`, `DirectX.OverlayRoundTripReleasesTwice` (engine with `AsWritten`, over `DirectX.CleanupAsWritten`) | `Capturer.CorrectedTickKeepsValid`, `Capturer.CorrectedSwitchKeepsValid`, `DirectX.CleanupTwiceReleasesOnce` (engine with `Corrected`, over `DirectX.Cleanup`) |

## Left out

- The capture thread, the atomics, the mutex, join on destruction and shutdown: the loop is modelled one pass at a time, sequentially.
- The Direct3D, DXGI, GDI and window calls themselves. Their results are the inputs `Platform`, `TickInput.screen`, `TickInput.foreground` and `DxOutcome`.
- Conversion of device names from UTF-16 into a 32-byte buffer: the layout carries the converted names.
- The JavaScript binding, module registration and the Electron application in `index.js`.
- Reference counts beyond acquired/released. The immediate context obtained at line 232 on every tick that reaches the copy, including those whose map at line 237 fails, is never released, and the factory created while building the chain is never released. Neither is modelled.
- The engine destructor's teardown (lines 25-31) and the GDI objects' lifetime: the GDI objects are created once and never fail in the model.
- `Capturer.FitToFrame`: `width * height * 4` is computed in a C++ `int`, and its overflow for very large screens is not modelled. Width and height are naturals.
- Row pitch of the mapped texture: the mapped memory is taken as a flat byte sequence read from its start.
- `Capturer.Int32Value`: JavaScript numbers are represented by their integer part, already truncated toward zero, or as non-finite. The fractional part is not modelled.

=== FILE: capturer.dfy ===
/** The capture engine: its state between ticks, one tick of the capture
    loop, the monitor switch, the frame read and engine start-up. */
module Capturer {
  import opened Platform
  import opened Pixels
  import opened DirectX
  import Monitors

  /** What the engine keeps between ticks. `width` and `height` are the
      primary screen's size, read once at start-up. */
  datatype Engine = Engine(
    useGDI: bool,
    chain: Chain,
    monitor: nat,
    latest: seq<bv8>,
    width: nat,
    height: nat)

  /** What the engine with the corrected teardown keeps true between calls:
      the stored frame holds whole pixels and no chain member is a released
      leftover. The teardown as written breaks the second half at the first
      overlay. */
  predicate Valid(e: Engine) {
    PixelAligned(e.latest) && NoDangling(e.chain)
  }

  /** Builds the engine: the DirectX chain for output 0 first (a failure
      aborts construction), then the screen-sized bitmap of the fallback
      path. Nothing has been published yet. */
  function Start(p: Platform, screenWidth: nat, screenHeight: nat): (r: Option<Engine>)
    ensures r.Some? <==> InitSucceeds(p, 0)
    ensures r.Some? ==> && !r.value.useGDI && Usable(r.value.chain) && r.value.monitor == 0
                        && r.value.latest == [] && r.value.width == screenWidth
                        && r.value.height == screenHeight && Valid(r.value)
  {
    match Initialize(NoHandles, p, 0)
    case InitFailed(_, _) => None
    case Initialized(c) => Some(Engine(false, c, 0, [], screenWidth, screenHeight))
  }

  /** The mode change a tick makes before capturing. */
  datatype Transition = Stay | ToGDI | ToDirectX

  /** The engine after the mode check, or the step whose failure escaped
      the capture thread; either way with the number of pointers the
      teardown released a second time. */
  datatype ModeResult =
    | ModeChanged(engine: Engine, transition: Transition, overReleases: nat)
    | ModeCrashed(step: InitStep, overReleases: nat)

  /** The mode check at the top of every tick, with the teardown `style`.
      With the overlay in front and the engine on DirectX it switches to the
      fallback path and tears the chain down; with the overlay gone and the
      engine on the fallback path it clears the fallback flag, tears the chain
      down and rebuilds it for the current monitor, and a failure there
      escapes the capture thread. */
  function ModeStep(e: Engine, overlay: bool, p: Platform, style: TeardownStyle): (r: ModeResult)
    ensures r.ModeCrashed? <==> !overlay && e.useGDI && !InitSucceeds(p, e.monitor)
    ensures r.overReleases == (if overlay != e.useGDI then DanglingCount(e.chain) else 0)
    ensures r.ModeChanged? ==>
              && r.engine.monitor == e.monitor && r.engine.latest == e.latest
              && r.engine.width == e.width && r.engine.height == e.height
              && r.engine.useGDI == (if r.transition == Stay then e.useGDI else overlay)
    ensures r.ModeChanged? && r.transition == ToGDI <==> overlay && !e.useGDI
    ensures r.ModeChanged? && r.transition == ToGDI && style == Corrected ==> r.engine.chain == NoHandles
    ensures r.ModeChanged? && r.transition == ToGDI && style == AsWritten ==>
              forall i :: 0 <= i < 5 ==>
                Handles(r.engine.chain)[i] == (if Handles(e.chain)[i] == Null then Null else Released)
    ensures r.ModeChanged? && r.transition == ToDirectX <==> !overlay && e.useGDI && InitSucceeds(p, e.monitor)
    ensures r.ModeChanged? && r.transition == ToDirectX ==> Usable(r.engine.chain)
    ensures r.ModeChanged? && r.transition == Stay ==> r.engine == e
  {
    if overlay && !e.useGDI then
      var torn := TearDown(e.chain, style);
      ModeChanged(e.(useGDI := true, chain := torn.chain), ToGDI, torn.overReleases)
    else if !overlay && e.useGDI then
      var torn := TearDown(e.chain, style);
      match Initialize(torn.chain, p, e.monitor)
      case InitFailed(step, _) => ModeCrashed(step, torn.overReleases)
      case Initialized(c) => ModeChanged(e.(useGDI := false, chain := c), ToDirectX, torn.overReleases)
    else
      ModeChanged(e, Stay, 0)
  }

  /** The bytes the fallback path hands over: the buffer is sized
      `width * height * 4` and zero-filled, and the bitmap copy writes the
      screen's bytes into it. */
  function FitToFrame(screen: seq<bv8>, n: nat): (r: seq<bv8>)
    ensures |r| == n
    ensures forall i :: 0 <= i < n ==> r[i] == (if i < |screen| then screen[i] else 0)
  {
    if |screen| >= n then screen[..n]
    else screen + seq(n - |screen|, _ => 0)
  }

  /** Everything the outside world decides during one tick: the foreground
      window's class name, the platform's answers if the chain is rebuilt,
      the bytes the fallback path reads off the screen and the outcome of
      the duplication path. */
  datatype TickInput = TickInput(foreground: Option<string>, platform: Platform, screen: seq<bv8>, dx: DxOutcome)

  /** The engine after one pass, or why the pass crashed; either way with
      the number of pointers released a second time during the pass. */
  datatype TickResult =
    | Next(engine: Engine, transition: Transition, published: bool, overReleases: nat)
    | Halted(reason: Crash, overReleases: nat)

  /** Bytes of one frame on the fallback path. */
  function FrameSize(e: Engine): nat {
    e.width * e.height * 4
  }

  /** One pass of the capture loop: mode check, capture on the active path,
      channel swap, publish. A skipped duplication tick publishes nothing. */
  function Tick(e: Engine, input: TickInput, style: TeardownStyle): (r: TickResult)
    ensures r.overReleases == (if OverlayActive(input.foreground) != e.useGDI then DanglingCount(e.chain) else 0)
    ensures r.Next? ==> r.engine.monitor == e.monitor && r.engine.width == e.width && r.engine.height == e.height
    ensures r.Next? && !r.published ==> r.engine.latest == e.latest && !r.engine.useGDI
    ensures r.Next? && r.engine.useGDI ==> r.published && |r.engine.latest| == FrameSize(e)
    ensures r.Next? && r.published ==> PixelAligned(r.engine.latest)
    ensures r.Next? ==> r.engine.useGDI == OverlayActive(input.foreground)
    ensures var m := ModeStep(e, OverlayActive(input.foreground), input.platform, style);
            && (r.Halted? <==> m.ModeCrashed? || (!m.engine.useGDI && DxCapture(m.engine.chain, input.dx).Crashed?))
            && (r.Next? ==> r.transition == m.transition && r.engine.chain == m.engine.chain)
    ensures r.Next? && r.engine.useGDI ==> r.engine.latest == SwapRedBlue(FitToFrame(input.screen, FrameSize(e)))
    ensures r.Next? && r.published && !r.engine.useGDI ==>
              && DxCapture(r.engine.chain, input.dx).Captured?
              && r.engine.latest == SwapRedBlue(DxCapture(r.engine.chain, input.dx).bytes)
  {
    match ModeStep(e, OverlayActive(input.foreground), input.platform, style)
    case ModeCrashed(step, over) => Halted(ReinitEscaped(step), over)
    case ModeChanged(m, t, over) =>
      if m.useGDI then
        var frame := FitToFrame(input.screen, FrameSize(m));
        assert PixelAligned(frame) by { MultipleOfFour(m.width * m.height); }
        Next(m.(latest := SwapRedBlue(frame)), t, true, over)
      else
        match DxCapture(m.chain, input.dx)
        case Crashed(reason) => Halted(reason, over)
        case Skipped => Next(m, t, false, over)
        case Captured(bytes) => Next(m.(latest := SwapRedBlue(bytes)), t, true, over)
  }

  lemma MultipleOfFour(n: nat)
    ensures (n * 4) % 4 == 0
  {
  }

  /** What reading the latest frame returns. */
  datatype FrameView = FrameView(data: seq<bv8>, width: nat, height: nat)

  /** Copy of the stored frame with the stored size; the engine is not touched. */
  function GetLatestFrame(e: Engine): (r: FrameView)
    ensures r.data == e.latest && r.width == e.width && r.height == e.height
  {
    FrameView(e.latest, e.width, e.height)
  }

  /** A JavaScript number handed to the addon: its integer part, or a NaN
      or infinity. */
  datatype JsNumber = Finite(truncated: int) | NonFinite

  /** An argument of the switch call: a number or anything else. */
  datatype JsValue = Number(n: JsNumber) | NotNumber

  /** Conversion of a JavaScript number to a 32-bit signed integer: the low
      32 bits of the integer part, read as two's complement; 0 for NaN and
      the infinities. */
  function Int32Value(n: JsNumber): (r: int)
    ensures -0x8000_0000 <= r < 0x8000_0000
    ensures n.Finite? ==> (r - n.truncated) % 0x1_0000_0000 == 0
    ensures n.NonFinite? ==> r == 0
  {
    match n
    case NonFinite => 0
    case Finite(v) =>
      var low := v % 0x1_0000_0000;
      if low >= 0x8000_0000 then low - 0x1_0000_0000 else low
  }

  datatype SwitchStatus = Switched | InvalidArgument | InvalidIndex | SwitchFailed(step: InitStep)

  datatype SwitchReply = SwitchReply(engine: Engine, status: SwitchStatus, overReleases: nat)

  /** The monitor switch: reject a missing or non-numeric argument and a
      negative index without touching the engine; otherwise store the new
      index, then tear the chain down with `style` and rebuild it for that
      index. The index stays stored when the rebuild fails, the failing call
      nulls its member, and the members the rebuild did not reach keep what
      the teardown left in them. */
  function SwitchMonitor(e: Engine, args: seq<JsValue>, p: Platform, style: TeardownStyle): (r: SwitchReply)
    ensures r.status == InvalidArgument <==> |args| == 0 || args[0].NotNumber?
    ensures r.status == InvalidIndex <==> |args| > 0 && args[0].Number? && Int32Value(args[0].n) < 0
    ensures r.status.InvalidArgument? || r.status.InvalidIndex? ==> r.engine == e && r.overReleases == 0
    ensures r.status.Switched? || r.status.SwitchFailed? ==>
              && |args| > 0 && args[0].Number? && r.engine.monitor == Int32Value(args[0].n)
              && r.engine.useGDI == e.useGDI && r.engine.latest == e.latest
              && r.engine.width == e.width && r.engine.height == e.height
              && (r.status.Switched? <==> InitSucceeds(p, r.engine.monitor))
              && r.overReleases == DanglingCount(e.chain)
    ensures r.status.Switched? ==> Usable(r.engine.chain)
    ensures r.status.SwitchFailed? ==> FirstFailure(p, r.engine.monitor) == Some(r.status.step)
    ensures r.status.SwitchFailed? ==>
              forall i :: 0 <= i < 5 ==>
                Handles(r.engine.chain)[i] ==
                  (if i < StoredBefore(r.status.step) then Live
                   else if i == StoredBefore(r.status.step) && FailureNullsMember(r.status.step) then Null
                   else if style == Corrected || Handles(e.chain)[i] == Null then Null
                   else Released)
    ensures r.status.SwitchFailed? && style == Corrected ==> LivePrefix(r.engine.chain, StoredBefore(r.status.step))
  {
    if |args| < 1 || !args[0].Number? then SwitchReply(e, InvalidArgument, 0)
    else
      var index := Int32Value(args[0].n);
      if index < 0 then SwitchReply(e, InvalidIndex, 0)
      else
        var stored := e.(monitor := index);
        var torn := TearDown(stored.chain, style);
        match Initialize(torn.chain, p, index)
        case Initialized(c) => SwitchReply(stored.(chain := c), Switched, torn.overReleases)
        case InitFailed(step, c) => SwitchReply(stored.(chain := c), SwitchFailed(step), torn.overReleases)
  }

  /** A second mode check with the same overlay reading changes nothing: no
      second teardown, no second rebuild. */
  lemma ModeStepIdempotent(e: Engine, overlay: bool, p: Platform, p2: Platform, style: TeardownStyle)
    requires ModeStep(e, overlay, p, style).ModeChanged?
    ensures ModeStep(ModeStep(e, overlay, p, style).engine, overlay, p2, style)
            == ModeChanged(ModeStep(e, overlay, p, style).engine, Stay, 0)
  {
  }

  /** Outcome of several ticks in a row, with the mode change of each tick. */
  datatype RunResult = Ran(engine: Engine, log: seq<Transition>) | RunHalted(reason: Crash, log: seq<Transition>)

  function RunTicks(e: Engine, inputs: seq<TickInput>, style: TeardownStyle): RunResult
    decreases |inputs|
  {
    if |inputs| == 0 then Ran(e, [])
    else
      match Tick(e, inputs[0], style)
      case Halted(reason, _) => RunHalted(reason, [])
      case Next(e1, t, _, _) =>
        match RunTicks(e1, inputs[1..], style)
        case Ran(e2, log) => Ran(e2, [t] + log)
        case RunHalted(reason, log) => RunHalted(reason, [t] + log)
  }

  function Occurrences(log: seq<Transition>, t: Transition): nat {
    if |log| == 0 then 0 else (if log[0] == t then 1 else 0) + Occurrences(log[1..], t)
  }

  /** While the overlay stays in front the loop never stops, tears the chain
      down at most once (exactly once when it started on DirectX) and never
      rebuilds it. */
  lemma {:induction false} OverlayHeldTearsDownOnce(e: Engine, inputs: seq<TickInput>, style: TeardownStyle)
    requires forall i :: 0 <= i < |inputs| ==> OverlayActive(inputs[i].foreground)
    ensures RunTicks(e, inputs, style).Ran?
    ensures Occurrences(RunTicks(e, inputs, style).log, ToGDI) == (if |inputs| > 0 && !e.useGDI then 1 else 0)
    ensures Occurrences(RunTicks(e, inputs, style).log, ToDirectX) == 0
    ensures |inputs| > 0 ==> RunTicks(e, inputs, style).engine.useGDI
    decreases |inputs|
  {
    if |inputs| > 0 {
      var r := Tick(e, inputs[0], style);
      assert r.Next? && r.engine.useGDI;
      OverlayHeldTearsDownOnce(r.engine, inputs[1..], style);
    }
  }

  /** The two teardowns give the same tick apart from the chain members and
      the count of second releases: same crash or same mode change, same
      publication, same frame. */
  lemma TeardownStyleOnlyChangesChain(e: Engine, input: TickInput)
    ensures Tick(e, input, AsWritten).Next? <==> Tick(e, input, Corrected).Next?
    ensures Tick(e, input, AsWritten).Halted? ==>
              Tick(e, input, AsWritten).reason == Tick(e, input, Corrected).reason
    ensures Tick(e, input, AsWritten).Next? ==>
              && Tick(e, input, AsWritten).transition == Tick(e, input, Corrected).transition
              && Tick(e, input, AsWritten).published == Tick(e, input, Corrected).published
              && Tick(e, input, AsWritten).engine.(chain := e.chain) == Tick(e, input, Corrected).engine.(chain := e.chain)
  {
  }

  /** With the engine on DirectX and no overlay, a tick whose duplication
      call fails publishes nothing and leaves the engine as it was. */
  lemma FailedCaptureLeavesEngine(e: Engine, input: TickInput, style: TeardownStyle)
    requires !e.useGDI && Usable(e.chain) && !OverlayActive(input.foreground)
    requires input.dx.AcquireFailed? || input.dx.QueryFailed? || input.dx.StagingFailed? || input.dx.MapFailed?
    ensures Tick(e, input, style) == Next(e, Stay, false, 0)
  {
  }

  /** A tick that ran the duplication path and did not crash published a
      frame exactly when every duplication call succeeded, and released
      each per-tick object it acquired exactly once. */
  lemma DirectXTickReleasesWhatItAcquires(e: Engine, input: TickInput, style: TeardownStyle)
    requires Tick(e, input, style).Next? && !Tick(e, input, style).engine.useGDI
    ensures Tick(e, input, style).published <==> Reached(input.dx) == |AcquisitionOrder|
    ensures CaptureCalls(input.dx).acquired == AcquisitionOrder[..Reached(input.dx)]
    ensures multiset(CaptureCalls(input.dx).released) == multiset(CaptureCalls(input.dx).acquired)
  {
    var m := ModeStep(e, OverlayActive(input.foreground), input.platform, style);
    assert m.ModeChanged? && !m.engine.useGDI;
    var d := DxCapture(m.engine.chain, input.dx);
    assert d.Skipped? || d.Captured?;
  }

  /** The chain a tick without overlay captures through: the stored one on
      DirectX, the freshly rebuilt one (every member live) on the way back
      from the fallback path. */
  function CaptureChain(e: Engine): (c: Chain)
    ensures !e.useGDI ==> c == e.chain
    ensures e.useGDI ==> Usable(c)
  {
    if e.useGDI then AllLive else e.chain
  }

  /** A successful duplication tick, including the one that first rebuilds
      the chain, replaces the frame with the swapped copied bytes, which
      swapping once more gives back. */
  lemma CapturedFrameRoundTrip(e: Engine, input: TickInput, style: TeardownStyle)
    requires !OverlayActive(input.foreground)
    requires e.useGDI ==> InitSucceeds(input.platform, e.monitor)
    requires DxCapture(CaptureChain(e), input.dx).Captured?
    ensures Tick(e, input, style).Next? && Tick(e, input, style).published
    ensures Tick(e, input, style).engine.chain == CaptureChain(e)
    ensures GetLatestFrame(Tick(e, input, style).engine).data == SwapRedBlue(DxCapture(CaptureChain(e), input.dx).bytes)
    ensures SwapRedBlue(GetLatestFrame(Tick(e, input, style).engine).data) == DxCapture(CaptureChain(e), input.dx).bytes
  {
    var bytes := DxCapture(CaptureChain(e), input.dx).bytes;
    SwapTwiceIsIdentity(bytes);
  }

  /** With the overlay in front a tick always runs the fallback path and
      publishes the swapped screen bytes, fitted to the frame size; swapping
      the read frame once more gives those bytes back. */
  lemma FallbackFrameRoundTrip(e: Engine, input: TickInput, style: TeardownStyle)
    requires OverlayActive(input.foreground)
    ensures Tick(e, input, style).Next? && Tick(e, input, style).engine.useGDI && Tick(e, input, style).published
    ensures PixelAligned(FitToFrame(input.screen, FrameSize(e)))
    ensures GetLatestFrame(Tick(e, input, style).engine).data == SwapRedBlue(FitToFrame(input.screen, FrameSize(e)))
    ensures SwapRedBlue(GetLatestFrame(Tick(e, input, style).engine).data) == FitToFrame(input.screen, FrameSize(e))
  {
    var frame := FitToFrame(input.screen, FrameSize(e));
    MultipleOfFour(e.width * e.height);
    SwapTwiceIsIdentity(frame);
  }

  /** Teardown as written, at engine level: the overlay tick on DirectX
      releases the five pointers and leaves them released but non-null; the
      next tick without overlay tears them down again before rebuilding and
      releases all five a second time, whether or not the rebuild succeeds. */
  lemma OverlayThenClearReleasesTwice(e: Engine, overlayOn: TickInput, overlayOff: TickInput)
    requires !e.useGDI && Usable(e.chain)
    requires OverlayActive(overlayOn.foreground) && !OverlayActive(overlayOff.foreground)
    ensures Tick(e, overlayOn, AsWritten).Next? && Tick(e, overlayOn, AsWritten).overReleases == 0
    ensures Tick(e, overlayOn, AsWritten).engine.chain == Chain(Released, Released, Released, Released, Released)
    ensures Tick(Tick(e, overlayOn, AsWritten).engine, overlayOff, AsWritten).overReleases == 5
  {
    var t1 := Tick(e, overlayOn, AsWritten);
    assert Handles(t1.engine.chain) == [Released, Released, Released, Released, Released];
  }

  /** Teardown as written, at engine level: a valid switch made while the
      overlay keeps the engine on the fallback path tears the already
      released chain down again and releases all five pointers a second time. */
  lemma SwitchInFallbackReleasesTwice(e: Engine, overlayOn: TickInput, v: nat, p: Platform)
    requires !e.useGDI && Usable(e.chain) && OverlayActive(overlayOn.foreground)
    requires v < 0x8000_0000
    ensures Tick(e, overlayOn, AsWritten).Next? && Tick(e, overlayOn, AsWritten).engine.useGDI
    ensures SwitchMonitor(Tick(e, overlayOn, AsWritten).engine, [Number(Finite(v))], p, AsWritten).overReleases == 5
  {
    var t1 := Tick(e, overlayOn, AsWritten);
    assert Handles(t1.engine.chain) == [Released, Released, Released, Released, Released];
    assert Int32Value(Finite(v)) == v;
  }

  /** Teardown as written, with a failed upgrade in between: after the
      overlay tick a switch whose `IDXGIOutput1` query fails releases all
      five pointers a second time and leaves that member null; the tick
      after the overlay clears then releases only the duplication, still
      released from before, a third time. */
  lemma FailedUpgradeInFallbackThenClear(e: Engine, overlayOn: TickInput, v: nat, p: Platform, overlayOff: TickInput)
    requires !e.useGDI && Usable(e.chain) && OverlayActive(overlayOn.foreground)
    requires !OverlayActive(overlayOff.foreground)
    requires v < 0x8000_0000
    requires p.deviceCreated && p.factoryCreated && |p.layout| > 0 && v < |p.layout[0]| && !p.output1Supported
    ensures Tick(e, overlayOn, AsWritten).Next?
    ensures var s := SwitchMonitor(Tick(e, overlayOn, AsWritten).engine, [Number(Finite(v))], p, AsWritten);
            && s.status == SwitchFailed(QueryOutput1) && s.overReleases == 5
            && s.engine.chain == Chain(Live, Live, Live, Null, Released)
            && Tick(s.engine, overlayOff, AsWritten).overReleases == 1
  {
    var t1 := Tick(e, overlayOn, AsWritten);
    assert Handles(t1.engine.chain) == [Released, Released, Released, Released, Released];
    assert Int32Value(Finite(v)) == v;
    var s := SwitchMonitor(t1.engine, [Number(Finite(v))], p, AsWritten);
    assert Handles(s.engine.chain) == [Live, Live, Live, Null, Released];
  }

  /** With the corrected teardown every tick keeps the engine valid, so no
      tick releases a pointer a second time. */
  lemma CorrectedTickKeepsValid(e: Engine, input: TickInput)
    requires Valid(e)
    ensures Tick(e, input, Corrected).overReleases == 0
    ensures Tick(e, input, Corrected).Next? ==> Valid(Tick(e, input, Corrected).engine)
  {
  }

  /** With the corrected teardown every switch keeps the engine valid and
      releases no pointer a second time. */
  lemma CorrectedSwitchKeepsValid(e: Engine, args: seq<JsValue>, p: Platform)
    requires Valid(e)
    ensures SwitchMonitor(e, args, p, Corrected).overReleases == 0
    ensures Valid(SwitchMonitor(e, args, p, Corrected).engine)
  {
  }

  /** Every read between ticks returns a whole number of pixels with the
      size the engine started with, however many ticks ran before it. */
  lemma {:induction false} ReadsStayPixelAligned(e: Engine, inputs: seq<TickInput>, style: TeardownStyle)
    requires PixelAligned(e.latest)
    ensures RunTicks(e, inputs, style).Ran? ==>
              && PixelAligned(GetLatestFrame(RunTicks(e, inputs, style).engine).data)
              && GetLatestFrame(RunTicks(e, inputs, style).engine).width == e.width
              && GetLatestFrame(RunTicks(e, inputs, style).engine).height == e.height
    decreases |inputs|
  {
    if |inputs| > 0 {
      var r := Tick(e, inputs[0], style);
      if r.Next? {
        ReadsStayPixelAligned(r.engine, inputs[1..], style);
      }
    }
  }

  /** Before the first publish the frame read is empty. */
  lemma FirstReadIsEmpty(p: Platform, w: nat, h: nat)
    requires Start(p, w, h).Some?
    ensures GetLatestFrame(Start(p, w, h).value).data == []
    ensures GetLatestFrame(Start(p, w, h).value).width == w && GetLatestFrame(Start(p, w, h).value).height == h
  {
  }

  /** Start-up with the overlay in front and a duplication that never
      delivers: the first tick moves to the fallback path and publishes the
      fallback frame; the overlay gone, the second tick moves back to
      DirectX with the chain rebuilt for the unchanged monitor. The teardown
      as written releases the five pointers a second time on the way back. */
  lemma OverlayThenClearScenario(p: Platform, w: nat, h: nat, screen: seq<bv8>, p2: Platform, screen2: seq<bv8>, style: TeardownStyle)
    requires Start(p, w, h).Some?
    requires InitSucceeds(p2, 0)
    ensures var e0 := Start(p, w, h).value;
            var t1 := Tick(e0, TickInput(Some(OverlayClassName), p, screen, AcquireFailed), style);
            && t1.Next? && t1.engine.useGDI && t1.transition == ToGDI
            && t1.engine.latest == SwapRedBlue(FitToFrame(screen, w * h * 4))
            && var t2 := Tick(t1.engine, TickInput(None, p2, screen2, AcquireFailed), style);
               && t2.Next? && !t2.engine.useGDI && t2.transition == ToDirectX
               && t2.engine.monitor == 0 && Usable(t2.engine.chain)
               && t2.engine.latest == t1.engine.latest
               && t2.overReleases == (if style == AsWritten then 5 else 0)
  {
    var e0 := Start(p, w, h).value;
    var t1 := Tick(e0, TickInput(Some(OverlayClassName), p, screen, AcquireFailed), style);
    assert e0.chain == AllLive;
    assert style == AsWritten ==> Handles(t1.engine.chain) == [Released, Released, Released, Released, Released];
  }

  /** A switch whose rebuild fails leaves the duplication member null (with
      the corrected teardown) or released but non-null (as written), and the
      next tick on DirectX without overlay calls through it. */
  lemma FailedSwitchHaltsNextTick(e: Engine, args: seq<JsValue>, p: Platform, input: TickInput, style: TeardownStyle)
    requires !e.useGDI && SwitchMonitor(e, args, p, style).status.SwitchFailed?
    requires !OverlayActive(input.foreground)
    ensures SwitchMonitor(e, args, p, style).engine.chain.duplication != Live
    ensures Tick(SwitchMonitor(e, args, p, style).engine, input, style).Halted?
    ensures Tick(SwitchMonitor(e, args, p, style).engine, input, style).reason == DuplicationNotLive
  {
    var r := SwitchMonitor(e, args, p, style);
    assert Handles(r.engine.chain)[4] != Live;
  }

  /** Switching to an index adapter 0 does not have fails at output
      enumeration, with the index stored all the same. */
  lemma SwitchToMissingOutputFails(e: Engine, v: nat, p: Platform, style: TeardownStyle)
    requires v < 0x8000_0000
    requires p.deviceCreated && p.factoryCreated && |p.layout| > 0 && v >= |p.layout[0]|
    ensures SwitchMonitor(e, [Number(Finite(v))], p, style).status == SwitchFailed(EnumOutput)
    ensures SwitchMonitor(e, [Number(Finite(v))], p, style).engine.monitor == v
  {
  }

  /** A NaN or infinite argument passes the number check and selects
      output 0. */
  lemma NonFiniteSwitchSelectsFirstOutput(e: Engine, p: Platform, style: TeardownStyle)
    ensures SwitchMonitor(e, [Number(NonFinite)], p, style).status != InvalidArgument
    ensures SwitchMonitor(e, [Number(NonFinite)], p, style).status != InvalidIndex
    ensures SwitchMonitor(e, [Number(NonFinite)], p, style).engine.monitor == 0
  {
  }

  /** The index listed for the second output of a second adapter names an
      output of adapter 0: with adapter 0 having one output, switching to it
      fails although the listing offered it. */
  lemma SecondAdapterOutputNotReachable(e: Engine, a: string, b: string, c: string, p: Platform, style: TeardownStyle)
    requires p.layout == [[a], [b, c]] && p.deviceCreated && p.factoryCreated
    ensures Monitors.MonitorInfo(c, 1) in Monitors.Flatten([[a], [b, c]])
    ensures SwitchMonitor(e, [Number(Finite(1))], p, style).status == SwitchFailed(EnumOutput)
  {
    Monitors.TwoAdaptersShareIndices(a, b, c);
  }
}

=== FILE: directx.dfy ===
/** The DirectX capture path: the chain of interface pointers the engine
    keeps between ticks, how it is built and torn down, and the calls one
    tick makes to grab a frame through output duplication. */
module DirectX {
  import opened Platform
  import opened Pixels

  /** State of one interface-pointer member. `Released` is a pointer whose
      reference has been given up but which still holds its old, non-null
      value, so the next `if (p) p->Release()` releases it again. */
  datatype Handle = Null | Live | Released

  /** The five pointers the engine keeps: device, adapter, output, the
      output's duplication-capable interface, and the duplication. */
  datatype Chain = Chain(device: Handle, adapter: Handle, output: Handle, output1: Handle, duplication: Handle)

  /** The pointers in the order they are acquired. */
  function Handles(c: Chain): seq<Handle> {
    [c.device, c.adapter, c.output, c.output1, c.duplication]
  }

  const NoHandles: Chain := Chain(Null, Null, Null, Null, Null)

  /** The chain a successful build leaves. */
  const AllLive: Chain := Chain(Live, Live, Live, Live, Live)

  /** Every pointer is live: the duplication can be used. */
  predicate Usable(c: Chain) {
    c.device == Live && c.adapter == Live && c.output == Live && c.output1 == Live && c.duplication == Live
  }

  /** No pointer is a released-but-non-null leftover. */
  predicate NoDangling(c: Chain) {
    c.device != Released && c.adapter != Released && c.output != Released
    && c.output1 != Released && c.duplication != Released
  }

  /** The first `n` pointers in acquisition order are live, the rest null. */
  predicate LivePrefix(c: Chain, n: nat) {
    forall i :: 0 <= i < 5 ==> Handles(c)[i] == (if i < n then Live else Null)
  }

  /** The calls that build the chain, in the order they are made. */
  datatype InitStep = CreateDevice | CreateFactory | EnumAdapter | EnumOutput | QueryOutput1 | DuplicateOutput

  /** How many chain pointers hold a fresh reference when `step` fails. The
      factory is a local and not part of the chain. */
  function StoredBefore(step: InitStep): nat {
    match step
    case CreateDevice => 0
    case CreateFactory => 1
    case EnumAdapter => 1
    case EnumOutput => 2
    case QueryOutput1 => 3
    case DuplicateOutput => 4
  }

  /** The first build call that fails for output `monitor` of adapter 0,
      in the order the calls are made; none when the whole chain builds. */
  function FirstFailure(p: Platform, monitor: nat): (f: Option<InitStep>)
    ensures f.None? <==> InitSucceeds(p, monitor)
  {
    if !p.deviceCreated then Some(CreateDevice)
    else if !p.factoryCreated then Some(CreateFactory)
    else if |p.layout| == 0 then Some(EnumAdapter)
    else if monitor >= |p.layout[0]| then Some(EnumOutput)
    else if !p.output1Supported then Some(QueryOutput1)
    else if !p.duplicationGranted then Some(DuplicateOutput)
    else None
  }

  /** Whether the call of `step` writes into a chain member. All but the
      factory's do; under the COM out-parameter rule a failing call writes
      null there, so that member is null after the failure. */
  predicate FailureNullsMember(step: InitStep) {
    step != CreateFactory
  }

  datatype InitResult = Initialized(chain: Chain) | InitFailed(step: InitStep, chain: Chain)

  /** The platform lets every step of the chain succeed for output `monitor`
      of adapter 0. */
  predicate InitSucceeds(p: Platform, monitor: nat) {
    && p.deviceCreated
    && p.factoryCreated
    && |p.layout| > 0
    && monitor < |p.layout[0]|
    && p.output1Supported
    && p.duplicationGranted
  }

  /** Builds the chain for output `monitor` of adapter 0, storing each
      pointer as soon as its call succeeds and stopping at the first failure.
      The failing call nulls the member it writes into; the pointers already
      stored stay live and the members after it keep what they held. */
  function Initialize(c: Chain, p: Platform, monitor: nat): (r: InitResult)
    ensures r.Initialized? <==> InitSucceeds(p, monitor)
    ensures r.Initialized? ==> Usable(r.chain)
    ensures r.InitFailed? ==> FirstFailure(p, monitor) == Some(r.step)
    ensures r.InitFailed? ==>
              forall i :: 0 <= i < 5 ==>
                Handles(r.chain)[i] ==
                  (if i < StoredBefore(r.step) then Live
                   else if i == StoredBefore(r.step) && FailureNullsMember(r.step) then Null
                   else Handles(c)[i])
    ensures r.InitFailed? && r.step == EnumOutput <==>
              p.deviceCreated && p.factoryCreated && |p.layout| > 0 && monitor >= |p.layout[0]|
  {
    if !p.deviceCreated then InitFailed(CreateDevice, c.(device := Null))
    else
      var withDevice := c.(device := Live);
      if !p.factoryCreated then InitFailed(CreateFactory, withDevice)
      else if |p.layout| == 0 then InitFailed(EnumAdapter, withDevice.(adapter := Null))
      else
        var withAdapter := withDevice.(adapter := Live);
        if monitor >= |p.layout[0]| then InitFailed(EnumOutput, withAdapter.(output := Null))
        else
          var withOutput := withAdapter.(output := Live);
          if !p.output1Supported then InitFailed(QueryOutput1, withOutput.(output1 := Null))
          else
            var withOutput1 := withOutput.(output1 := Live);
            if !p.duplicationGranted then InitFailed(DuplicateOutput, withOutput1.(duplication := Null))
            else Initialized(withOutput1.(duplication := Live))
  }

  /** Built from nothing, a failed chain is a live prefix: the pointers
      stored before the failing call stay live, the rest stay null. */
  lemma InitFromNothingLeavesPrefix(p: Platform, monitor: nat)
    ensures Initialize(NoHandles, p, monitor).InitFailed? ==>
              LivePrefix(Initialize(NoHandles, p, monitor).chain, StoredBefore(Initialize(NoHandles, p, monitor).step))
    ensures Initialize(NoHandles, p, monitor).Initialized? ==> LivePrefix(Initialize(NoHandles, p, monitor).chain, 5)
  {
  }

  /** Outcome of releasing every non-null pointer of the chain once. */
  datatype CleanupResult = CleanupResult(chain: Chain, releaseCalls: nat, overReleases: nat)

  /** One `if (p) p->Release()`, leaving the member null when `nullAfter`. */
  function ReleaseHandle(h: Handle, nullAfter: bool): Handle {
    if h == Null then Null
    else if nullAfter then Null
    else Released
  }

  function Tally(b: bool): nat {
    if b then 1 else 0
  }

  /** Number of members that are released leftovers. */
  function DanglingCount(c: Chain): (n: nat)
    ensures n == 0 <==> NoDangling(c)
    ensures n <= 5
  {
    Tally(c.duplication == Released) + Tally(c.output1 == Released) + Tally(c.output == Released)
      + Tally(c.adapter == Released) + Tally(c.device == Released)
  }

  /** Releases each non-null pointer once; the order of the calls does not
      change the counts, so it is not recorded. A release of a pointer that was already released is an over-release. */
  function ReleaseChain(c: Chain, nullAfter: bool): (r: CleanupResult)
    ensures r.releaseCalls ==
              Tally(c.device != Null) + Tally(c.adapter != Null) + Tally(c.output != Null)
              + Tally(c.output1 != Null) + Tally(c.duplication != Null)
    ensures r.overReleases == DanglingCount(c)
    ensures NoDangling(r.chain) <==> nullAfter || c == NoHandles
  {
    CleanupResult(
      Chain(ReleaseHandle(c.device, nullAfter), ReleaseHandle(c.adapter, nullAfter),
            ReleaseHandle(c.output, nullAfter), ReleaseHandle(c.output1, nullAfter),
            ReleaseHandle(c.duplication, nullAfter)),
      Tally(c.device != Null) + Tally(c.adapter != Null) + Tally(c.output != Null)
        + Tally(c.output1 != Null) + Tally(c.duplication != Null),
      DanglingCount(c))
  }

  /** Teardown as the engine writes it: every non-null member is released
      and keeps its old value, so it is left released but non-null. */
  function CleanupAsWritten(c: Chain): (r: CleanupResult)
    ensures forall i :: 0 <= i < 5 ==> Handles(r.chain)[i] == (if Handles(c)[i] == Null then Null else Released)
    ensures r.overReleases == 0 <==> NoDangling(c)
  {
    ReleaseChain(c, false)
  }

  /** Teardown that nulls every member it releases, which is what the
      engine's teardown evidently intends. */
  function Cleanup(c: Chain): (r: CleanupResult)
    ensures r.chain == NoHandles
    ensures r.overReleases == 0 <==> NoDangling(c)
  {
    ReleaseChain(c, true)
  }

  /** Which teardown the engine runs: the one in the source, or the
      corrected one that nulls the members. */
  datatype TeardownStyle = AsWritten | Corrected

  function TearDown(c: Chain, style: TeardownStyle): (r: CleanupResult)
    ensures style == AsWritten ==> r == CleanupAsWritten(c)
    ensures style == Corrected ==> r == Cleanup(c)
  {
    ReleaseChain(c, style == Corrected)
  }

  /** The overlay appears (teardown at the mode switch) and then disappears
      (teardown again at the start of reinitialization): with the members
      left non-null, the second teardown releases all five pointers a second
      time. */
  lemma OverlayRoundTripReleasesTwice(c: Chain)
    requires Usable(c)
    ensures CleanupAsWritten(c).overReleases == 0
    ensures CleanupAsWritten(CleanupAsWritten(c).chain).releaseCalls == 5
    ensures CleanupAsWritten(CleanupAsWritten(c).chain).overReleases == 5
  {
  }

  /** With the members nulled, a second teardown right after the first
      releases nothing, and a teardown of a chain without leftovers never
      releases a pointer twice. */
  lemma CleanupTwiceReleasesOnce(c: Chain)
    requires NoDangling(c)
    ensures Cleanup(c).overReleases == 0
    ensures Cleanup(Cleanup(c).chain) == CleanupResult(NoHandles, 0, 0)
  {
  }

  /** Per-tick objects of the duplication path: the frame lease taken by
      `AcquireNextFrame`, the resource it hands out, the texture interface,
      the staging texture and the mapping of that texture. */
  datatype TickResource = FrameLease | FrameResource | FrameTexture | StagingTexture | StagingMap

  type uint32 = x: int | 0 <= x < 0x1_0000_0000

  /** Which call of the duplication path fails first in one tick, or the
      texture size and mapped bytes when none does. */
  datatype DxOutcome =
    | AcquireFailed
    | QueryFailed
    | StagingFailed
    | MapFailed
    | Mapped(descWidth: uint32, descHeight: uint32, memory: seq<bv8>)

  /** The per-tick objects in the order a tick acquires them. */
  const AcquisitionOrder: seq<TickResource> := [FrameLease, FrameResource, FrameTexture, StagingTexture, StagingMap]

  /** How many per-tick objects a tick with outcome `o` obtains. */
  function Reached(o: DxOutcome): nat {
    match o
    case AcquireFailed => 0
    case QueryFailed => 2
    case StagingFailed => 3
    case MapFailed => 4
    case Mapped(_, _, _) => 5
  }

  /** Objects a tick obtains and gives back, each in call order. */
  datatype TickCalls = TickCalls(acquired: seq<TickResource>, released: seq<TickResource>)

  /** No per-tick object comes twice in a prefix of the order. */
  lemma PrefixIsDistinct(n: nat)
    requires n <= |AcquisitionOrder|
    ensures forall i, j :: 0 <= i < j < n ==> AcquisitionOrder[..n][i] != AcquisitionOrder[..n][j]
  {
  }

  /** The objects acquired and released on each path out of a tick, as the
      calls are made: an early exit releases the frame lease first, then the
      objects in acquisition order; the full path unmaps first. */
  function CaptureCalls(o: DxOutcome): (r: TickCalls)
    ensures r.acquired == AcquisitionOrder[..Reached(o)]
    ensures forall i, j :: 0 <= i < j < |r.acquired| ==> r.acquired[i] != r.acquired[j]
    ensures multiset(r.released) == multiset(r.acquired)
    ensures |r.released| == |r.acquired|
  {
    PrefixIsDistinct(Reached(o));
    var acquired := AcquisitionOrder[..Reached(o)];
    match o
    case AcquireFailed => TickCalls(acquired, [])
    case QueryFailed =>
      assert acquired == [FrameLease, FrameResource];
      TickCalls(acquired, [FrameLease, FrameResource])
    case StagingFailed =>
      assert acquired == [FrameLease, FrameResource, FrameTexture];
      TickCalls(acquired, [FrameLease, FrameResource, FrameTexture])
    case MapFailed =>
      assert acquired == [FrameLease, FrameResource, FrameTexture, StagingTexture];
      TickCalls(acquired, [FrameLease, FrameResource, FrameTexture, StagingTexture])
    case Mapped(_, _, _) =>
      var lease := acquired[..4];
      assert lease == [FrameLease, FrameResource, FrameTexture, StagingTexture];
      assert acquired == lease + [StagingMap];
      TickCalls(acquired, [StagingMap] + lease)
  }

  /** Wrapping to 32 bits keeps a multiple of four a multiple of four. */
  lemma WrapKeepsPixels(x: nat)
    requires x % 4 == 0
    ensures (x % 0x1_0000_0000) % 4 == 0
  {
  }

  /** Wrapping to 32 bits changes a number by a multiple of 2^32. */
  lemma WrapIsCongruent(x: nat)
    ensures (x % 0x1_0000_0000 - x) % 0x1_0000_0000 == 0
  {
    var q := x / 0x1_0000_0000;
    assert x % 0x1_0000_0000 - x == -q * 0x1_0000_0000;
  }

  /** Bytes the tick copies out of the mapping: `desc.Width * desc.Height * 4`
      computed in 32-bit unsigned arithmetic. */
  function CopySize(w: uint32, h: uint32): (n: nat)
    ensures n < 0x1_0000_0000 && n % 4 == 0
    ensures w * h * 4 < 0x1_0000_0000 ==> n == w * h * 4
    ensures (n - w * h * 4) % 0x1_0000_0000 == 0
  {
    var pixels: nat := w * h;
    var bytes: nat := pixels * 4;
    assert bytes % 4 == 0;
    WrapKeepsPixels(bytes);
    WrapIsCongruent(bytes);
    bytes % 0x1_0000_0000
  }

  datatype Crash = DuplicationNotLive | DeviceNotLive | MappedMemoryTooShort | ReinitEscaped(step: InitStep)

  datatype DxResult = Captured(bytes: seq<bv8>) | Skipped | Crashed(reason: Crash)

  /** One tick of the duplication path. A failing call skips the tick; a
      call through a pointer that is not live, or a copy that reads past the
      mapped memory, is a crash. */
  function DxCapture(c: Chain, o: DxOutcome): (r: DxResult)
    ensures r.Captured? ==> o.Mapped? && |r.bytes| == CopySize(o.descWidth, o.descHeight)
                            && |r.bytes| <= |o.memory| && r.bytes == o.memory[..|r.bytes|] && PixelAligned(r.bytes)
    ensures r.Captured? ==> Reached(o) == |AcquisitionOrder|
    ensures r.Skipped? ==> Reached(o) < |AcquisitionOrder|
    ensures r.Skipped? <==> c.duplication == Live && (o.AcquireFailed? || o.QueryFailed?
                                                     || (c.device == Live && (o.StagingFailed? || o.MapFailed?)))
    ensures r.Crashed? <==> c.duplication != Live
                            || (c.device != Live && !o.AcquireFailed? && !o.QueryFailed?)
                            || (o.Mapped? && |o.memory| < CopySize(o.descWidth, o.descHeight))
  {
    if c.duplication != Live then Crashed(DuplicationNotLive)
    else if o.AcquireFailed? || o.QueryFailed? then Skipped
    else if c.device != Live then Crashed(DeviceNotLive)
    else if o.StagingFailed? || o.MapFailed? then Skipped
    else
      var n := CopySize(o.descWidth, o.descHeight);
      if |o.memory| < n then Crashed(MappedMemoryTooShort)
      else Captured(o.memory[..n])
  }
}

=== FILE: monitors.dfy ===
/** Enumeration of every output of every adapter, as reported to JavaScript. */
module Monitors {
  import opened Platform

  /** One entry of the list: the output's device name and its position among
      the outputs of its own adapter. */
  datatype MonitorInfo = MonitorInfo(deviceName: string, index: nat)

  datatype Listing = Listed(monitors: seq<MonitorInfo>) | FactoryFailed

  /** Number of outputs over all adapters. */
  function TotalOutputs(layout: Layout): nat {
    if |layout| == 0 then 0 else TotalOutputs(layout[..|layout| - 1]) + |layout[|layout| - 1]|
  }

  /** The entries of one adapter: output `j` gets index `j`. */
  function AdapterEntries(names: seq<string>): (r: seq<MonitorInfo>)
    ensures |r| == |names|
    ensures forall j :: 0 <= j < |r| ==> r[j] == MonitorInfo(names[j], j)
  {
    seq(|names|, j requires 0 <= j < |names| => MonitorInfo(names[j], j))
  }

  /** Reference definition: the entries of all adapters, adapter after adapter. */
  function Flatten(layout: Layout): seq<MonitorInfo> {
    if |layout| == 0 then []
    else Flatten(layout[..|layout| - 1]) + AdapterEntries(layout[|layout| - 1])
  }

  lemma {:induction false} FlattenLength(layout: Layout)
    ensures |Flatten(layout)| == TotalOutputs(layout)
    decreases |layout|
  {
    if |layout| > 0 {
      FlattenLength(layout[..|layout| - 1]);
    }
  }

  /** Output `j` of adapter `i` sits right after the outputs of the adapters
      before `i`, and its index is `j` whatever `i` is. */
  lemma {:induction false} FlattenPosition(layout: Layout, i: nat, j: nat)
    requires i < |layout| && j < |layout[i]|
    ensures TotalOutputs(layout[..i]) + j < |Flatten(layout)|
    ensures Flatten(layout)[TotalOutputs(layout[..i]) + j] == MonitorInfo(layout[i][j], j)
    decreases |layout|
  {
    var last := |layout| - 1;
    var front := layout[..last];
    FlattenLength(front);
    FlattenLength(layout);
    if i < last {
      assert front[..i] == layout[..i];
      assert front[i] == layout[i];
      FlattenPosition(front, i, j);
    } else {
      assert layout[..i] == front;
    }
  }

  /** Every entry comes from some output, with that output's adapter-local
      position as its index. */
  lemma {:induction false} FlattenEntriesAreOutputs(layout: Layout, k: nat)
    requires k < |Flatten(layout)|
    ensures exists i, j :: 0 <= i < |layout| && 0 <= j < |layout[i]| && Flatten(layout)[k] == MonitorInfo(layout[i][j], j)
    decreases |layout|
  {
    var last := |layout| - 1;
    var front := layout[..last];
    FlattenLength(front);
    if k < |Flatten(front)| {
      FlattenEntriesAreOutputs(front, k);
      var i, j :| 0 <= i < |front| && 0 <= j < |front[i]| && Flatten(front)[k] == MonitorInfo(front[i][j], j);
      assert layout[i] == front[i];
    } else {
      var j := k - |Flatten(front)|;
      assert Flatten(layout)[k] == MonitorInfo(layout[last][j], j);
    }
  }

  /** Two adapters with one and two outputs give three entries indexed 0, 0, 1:
      the index does not tell the adapters apart. */
  lemma TwoAdaptersShareIndices(a: string, b: string, c: string)
    ensures Flatten([[a], [b, c]]) == [MonitorInfo(a, 0), MonitorInfo(b, 0), MonitorInfo(c, 1)]
  {
    var layout := [[a], [b, c]];
    assert layout[..1] == [[a]];
    assert [[a]][..0] == [];
    assert Flatten([[a]]) == [MonitorInfo(a, 0)] by {
      assert AdapterEntries([a]) == [MonitorInfo(a, 0)];
    }
    assert AdapterEntries([b, c]) == [MonitorInfo(b, 0), MonitorInfo(c, 1)];
  }

  /** The nested enumeration loops of the engine, which walk adapters and
      then outputs and append one entry per output. A failure to create the
      factory is reported before anything is enumerated. */
  method ListMonitors(factoryCreated: bool, layout: Layout) returns (r: Listing)
    ensures r.FactoryFailed? <==> !factoryCreated
    ensures r.Listed? ==> r.monitors == Flatten(layout)
  {
    if !factoryCreated {
      return FactoryFailed;
    }
    var list: seq<MonitorInfo> := [];
    var i := 0;
    while i < |layout|
      invariant 0 <= i <= |layout|
      invariant list == Flatten(layout[..i])
    {
      var j := 0;
      while j < |layout[i]|
        invariant 0 <= j <= |layout[i]|
        invariant list == Flatten(layout[..i]) + AdapterEntries(layout[i][..j])
      {
        assert AdapterEntries(layout[i][..j + 1]) == AdapterEntries(layout[i][..j]) + [MonitorInfo(layout[i][j], j)];
        list := list + [MonitorInfo(layout[i][j], j)];
        j := j + 1;
      }
      assert layout[i][..j] == layout[i];
      assert layout[..i + 1][..i] == layout[..i];
      i := i + 1;
    }
    assert layout[..i] == layout;
    return Listed(list);
  }
}

=== FILE: pixels.dfy ===
/** Pixel layout of a captured frame and the B-G-R-A to R-G-B-A channel swap
    that the capture loop applies to every frame before publishing it. */
module Pixels {

  /** A buffer holds whole pixels only. Both capture paths ask for 32 bits
      per pixel, so a pixel is four bytes throughout this module. */
  predicate PixelAligned(s: seq<bv8>) {
    |s| % 4 == 0
  }

  /** The position whose byte lands at position `i` after the swap: the first
      and third byte of each pixel trade places, the other two stay. */
  function SwapSource(i: nat): (j: nat)
    ensures i - 2 <= j <= i + 2
  {
    if i % 4 == 0 then i + 2
    else if i % 4 == 2 then i - 2
    else i
  }

  /** Swapping a byte back returns it to where it came from. */
  lemma SwapSourceInvolutive(i: nat)
    ensures SwapSource(SwapSource(i)) == i
  {
  }

  /** The swap never reaches outside the pixel it starts in. */
  lemma SwapSourceInBounds(i: nat, n: nat)
    requires n % 4 == 0 && i < n
    ensures SwapSource(i) < n
  {
  }

  /** The byte found at position `i` of a buffer after the swap. */
  function SwappedByte(s: seq<bv8>, i: nat): bv8
    requires PixelAligned(s) && i < |s|
  {
    SwapSourceInBounds(i, |s|);
    s[SwapSource(i)]
  }

  /** Exchanges byte 0 and byte 2 of every pixel. Applied to the bytes a
      capture backend writes (blue, green, red, alpha) it yields red, green,
      blue, alpha. */
  function SwapRedBlue(s: seq<bv8>): (r: seq<bv8>)
    requires PixelAligned(s)
    ensures |r| == |s|
    ensures forall i :: 0 <= i < |r| ==> SwapSource(i) < |s| && r[i] == s[SwapSource(i)]
  {
    seq(|s|, i requires 0 <= i < |s| => SwappedByte(s, i))
  }

  /** The bytes of pixel `k`. */
  function PixelAt(s: seq<bv8>, k: nat): seq<bv8>
    requires PixelAligned(s) && k < |s| / 4
  {
    s[4 * k .. 4 * k + 4]
  }

  /** Where each byte of the pixel starting at `p` comes from. */
  lemma SwapSourceInPixel(p: nat)
    requires p % 4 == 0
    ensures SwapSource(p) == p + 2 && SwapSource(p + 1) == p + 1
    ensures SwapSource(p + 2) == p && SwapSource(p + 3) == p + 3
  {
  }

  /** The loop of the capture engine, which walks the buffer four bytes at a
      time and swaps in place, computes exactly `SwapRedBlue`. */
  method ConvertBgraToRgba(frame: seq<bv8>) returns (out: seq<bv8>)
    requires PixelAligned(frame)
    ensures out == SwapRedBlue(frame)
  {
    out := frame;
    var i := 0;
    while i < |out|
      invariant |out| == |frame|
      invariant 0 <= i <= |out| && i % 4 == 0
      invariant forall k :: 0 <= k < i ==> out[k] == frame[SwapSource(k)]
      invariant forall k :: i <= k < |out| ==> out[k] == frame[k]
    {
      SwapSourceInPixel(i);
      var t := out[i];
      out := out[i := out[i + 2]][i + 2 := t];
      i := i + 4;
    }
    assert forall k :: 0 <= k < |out| ==> out[k] == SwapRedBlue(frame)[k];
  }

  /** Swapping twice restores the buffer, so a frame published with the
      swap applied zero or two times would carry blue where red belongs. */
  lemma SwapTwiceIsIdentity(s: seq<bv8>)
    requires PixelAligned(s)
    ensures PixelAligned(SwapRedBlue(s))
    ensures SwapRedBlue(SwapRedBlue(s)) == s
  {
    var once := SwapRedBlue(s);
    var twice := SwapRedBlue(once);
    forall i | 0 <= i < |s|
      ensures twice[i] == s[i]
    {
      SwapSourceInvolutive(i);
      assert twice[i] == once[SwapSource(i)];
    }
  }

  /** The swap acts on each pixel on its own. */
  lemma SwapOnePixel(s: seq<bv8>, p: nat)
    requires PixelAligned(s) && p % 4 == 0 && p + 4 <= |s|
    ensures SwapRedBlue(s)[p..p + 4] == [s[p + 2], s[p + 1], s[p], s[p + 3]]
  {
    SwapSourceInPixel(p);
  }

  /** Pixel `k` occupies bytes 4k to 4k+3, all inside an aligned buffer. */
  lemma PixelOffset(n: nat, k: nat)
    requires n % 4 == 0 && k < n / 4
    ensures (4 * k) % 4 == 0 && 4 * k + 4 <= n
  {
  }

  /** A buffer filled with one colour in B-G-R-A order reads back, pixel by
      pixel, as the same colour in R-G-B-A order. */
  lemma SolidColourReadsAsRgba(s: seq<bv8>, b: bv8, g: bv8, r: bv8, a: bv8)
    requires PixelAligned(s)
    requires forall k :: 0 <= k < |s| / 4 ==> PixelAt(s, k) == [b, g, r, a]
    ensures forall k :: 0 <= k < |s| / 4 ==> PixelAt(SwapRedBlue(s), k) == [r, g, b, a]
  {
    forall k | 0 <= k < |s| / 4
      ensures PixelAt(SwapRedBlue(s), k) == [r, g, b, a]
    {
      PixelOffset(|s|, k);
      var p := 4 * k;
      assert PixelAt(s, k) == s[p..p + 4];
      assert s[p] == b && s[p + 1] == g && s[p + 2] == r && s[p + 3] == a;
      SwapOnePixel(s, p);
    }
  }
}

=== FILE: platform.dfy ===
/** What the operating system and the graphics stack answer to the capture
    engine. Every call into Win32, DXGI or Direct3D that the engine makes is
    replaced by one of these values. */
module Platform {

  datatype Option<+T> = None | Some(value: T)

  /** For each adapter, in enumeration order, the device names of its
      outputs in enumeration order. An adapter with no outputs is an empty
      row. */
  type Layout = seq<seq<string>>

  /** Outcome of each call made while building the DirectX handle chain.
      Adapter and output enumeration are decided by `layout`: enumerating
      adapter 0 fails when there is no adapter, enumerating output `k` of
      adapter 0 fails when that adapter has at most `k` outputs. */
  datatype Platform = Platform(
    deviceCreated: bool,
    factoryCreated: bool,
    layout: Layout,
    output1Supported: bool,
    duplicationGranted: bool)

  /** Class name of the window that hosts the credential / elevation prompt. */
  const OverlayClassName: string := "Credential Dialog Xaml Host"

  /** The class name as read into the engine's 256-byte buffer: at most
      255 characters followed by the terminator. */
  function ClassNameRead(name: string): (read: string)
    ensures |read| <= 255
    ensures read == name <==> |name| <= 255
    ensures read <= name
    ensures |name| > 255 ==> |read| == 255
  {
    if |name| <= 255 then name else name[..255]
  }

  /** Whether the privileged overlay is in front, given the class name of the
      foreground window (`None` when there is no foreground window). The name
      is compared after being read into the fixed buffer, and the truncation
      never makes another class name match. */
  function OverlayActive(foreground: Option<string>): (active: bool)
    ensures active <==> foreground == Some(OverlayClassName)
  {
    foreground.Some? && ClassNameRead(foreground.value) == OverlayClassName
  }
}
